=== FILE: README.md ===
# siaclib upload-and-wait, modelled in Dafny

This project models the client side of a storage node's renter API in Go. It covers two parts.

- The request descriptors that `Delete`, `Download`, `ListFiles` and `UploadDefault` hand to `makeRequest`. Each is an HTTP method, an endpoint path built from the `/renter/...` constants, and a query-argument map.
- The blocking upload call `UploadDefault(src, dst)`. It sends one upload POST. It then calls `ListFiles` again and again. After each listing it scans the records in order for one whose `siapath` is `dst` and which is `available`. It sleeps 100 ms after every listing, including the listing that matched. It returns when a listing matched.

The network is an oracle. A `Wire` value says what building and sending one request produced: a delivered body, or a failure of `http.NewRequest` or `client.Do`. A `Decoder` says what `json.Unmarshal` made of a body. In the poller, the `i`-th `ListFiles` outcome is `fetches[i]`: a listing, an error return, or a process exit. A finite oracle that runs out before the loop stops ends in the status `StillPolling`. There the source would call `ListFiles` again. The loop has no bound, so it polls forever only if no later snapshot stops it. Sleeping is an event in the trace of observable actions, not time.

Go's `(string, error)` result is `Reply = Body | Err | Abort`. `Abort` is the process exit that `log.Fatalln` performs. It is kept separate from `Err`, because after it nothing is returned. `makeRequest` never produces `Err`, so `ListFiles` never returns an error. Over the real transport, both `if err != nil { return err }` branches of `UploadDefault` are dead code (`PollerFacts.UploadOverWireNeverReturnsErr`). The poller is still modelled over arbitrary outcomes, so that those branches are stated as written.

Files:
- `endpoints.dfy`: the endpoint constants.
- `requests.dfy`: the request descriptors, and `Route`, which reads a descriptor back into the call that built it.
- `transport.dfy`: `makeRequest`, decoding, `ListFiles`, `Delete` and `Download`.
- `poller.dfy`: `UploadDefault`. It has a recursive reference definition (`Await`, `Upload`) and the imperative loop, which is proved equal to it.
- `poller_facts.dfy`: counts of listings and sleeps, the stop conditions, and what happens on errors.

Three facts about the code shape the model:
- The code sleeps after the matching listing too. It does not sleep only when nothing matched.
- The only wait condition is the fixed "path equals `dst` and available" test. The code has no general predicate, no redundancy-threshold wait and no timeout.
- A decode failure ends the process. It is not returned as an error.

## Model

| member | source | states |
|---|---|---|
| Requests.DeleteRequest | sia.go:23-25 | `Delete(rem)` sends a POST to `/renter/delete/` + rem with no query arguments |
| Requests.DownloadRequest | sia.go:27-34 | `Download(rem, local)` sends a GET to `/renter/download/` + rem whose argument map is exactly `destination = local` |
| Requests.UploadRequest | sia.go:59-64 | the upload is a POST to `/renter/upload/` + dst whose argument map is exactly `source = src` |
| Requests.ListFilesRequest | sia.go:47-48 | listing is a GET of `/renter/files` with no arguments |
| Requests.RouteBuild | sia.go:13-34 | Route inverts Build: a descriptor's method, path segment and argument give back the call and all its inputs, so distinct calls build distinct descriptors |
| Requests.BuildRoute | sia.go:13-34 | every descriptor Route accepts is exactly the one Build makes for the call it names |
| Transport.MakeRequest | sia.go:109-135 | never yields an error; a delivered response gives its body whatever the status; construction or transport failure ends the process |
| Transport.ListFilesFrom | sia.go:47-54 | the body is decoded before the error is checked; a decode failure ends the process; an error reaches the caller only when its body still decodes; a listing is exactly the decoded records |
| Transport.ListFiles | sia.go:47-54 | `ListFiles` never returns an error; it lists exactly when the response arrived and decoded, otherwise the process ends |
| Transport.Delete | sia.go:23-25 | issues exactly the POST to `/renter/delete/` + rem with no arguments, and nothing else; returns the delivered body, otherwise the process ends; never an error |
| Transport.Download | sia.go:27-34 | issues exactly the GET to `/renter/download/` + rem with `destination = local`; returns the delivered body, otherwise the process ends; never an error |
| Poller.ScanForMatch | sia.go:77-82 | the scan stops exactly when some record has path `dst` and is available |
| Poller.Await | sia.go:70-85 | the loop keeps polling exactly when every fetch so far was a listing without a match; it only lists and sleeps |
| Poller.Upload | sia.go:58-68 | the first action is the upload POST; after it, only listings and sleeps happen; if the POST does not succeed, nothing else happens: an aborted POST ends the process with its reason, and a POST error is returned |
| Poller.UploadDefault | sia.go:58-88 | the imperative loop, with its `cont` flag, early returns and sleep at the end of each round, yields the same outcome and trace as the reference definition |
| PollerFacts.AwaitSkipsQuiet | sia.go:70-85 | each fetch without a match costs one listing and one sleep, and the outcome is decided by the fetches after it |
| PollerFacts.FirstMatchReturnsNil | sia.go:70-87 | if snapshot k is the first with a match and no earlier fetch failed, the call returns nil after exactly k+1 listings and k+1 sleeps |
| PollerFacts.ListingErrorReturned | sia.go:72-75 | a listing error before any match is returned at once: k+1 listings, k sleeps, nothing after |
| PollerFacts.ListingAbortExits | sia.go:92-128 | a listing that ends the process, by a decode failure (sia.go:92-96) or by `log.Fatalln` in `makeRequest` (sia.go:112-114, 126-128), ends the call after k+1 listings and k sleeps |
| PollerFacts.UploadErrorSkipsPolling | sia.go:64-67 | an upload POST error is returned with no listing and no sleep |
| PollerFacts.NoMatchKeepsPolling | sia.go:70-85 | for any finite run of snapshots without a match, the call has not returned and has listed and slept once per snapshot; there is no bound |
| PollerFacts.ReturnedNilOnlyAfterMatch | sia.go:77-82 | nil is returned only if the POST succeeded and some snapshot held an available record at `dst`, with every earlier fetch a listing without one |
| PollerFacts.StopIgnoresLaterSnapshots | sia.go:78-87 | once the loop has stopped, later snapshots are never fetched |
| PollerFacts.UploadOverWireNeverReturnsErr | sia.go:64-75 | over the real transport, `UploadDefault` never returns a non-nil error |
| PollerFacts.UploadOverWire | sia.go:64-72 | `UploadDefault` with its POST through `makeRequest` and its listings through `ListFiles`: it begins with the upload POST, and it lists or returns nil only if that POST was delivered |
| PollerFacts.UploadOverWireAbortExits | sia.go:109-128 | an upload POST that fails to build or to send ends the process with that failure's reason, with no listing and no sleep |
| PollerFacts.DecoysDoNotStop | sia.go:78 | an unavailable record at `dst` next to an available record at another path does not stop the loop |

## Left out

- The HTTP client, `http.NewRequest`, `client.Do`, reading the body and the `User-Agent` header (sia.go:110-132). Their combined effect on one request is the `Wire` oracle.
- The base address. The URL is `BASE_ADDRESS + endpoint` (sia.go:111). Every request uses the same prefix, so a descriptor holds only the endpoint path.
- URL parsing in `http.NewRequest` (sia.go:111). It can send two distinct descriptors as the same HTTP request. For example, `Delete("a#x")` and `Delete("a")` both reach `/renter/delete/a`, because the fragment is dropped. A `?` in a remote path adds query arguments, because sia.go:118 starts from the query `http.NewRequest` parsed out of the endpoint. So `Delete("a?x=1")` sends the argument `x=1`, and `UploadDefault(src, "x?source=y")` sends `source` twice, `y` first. The model proves only that distinct calls build distinct descriptors. A descriptor's argument map is not the query string that reaches the server.
- Go's byte strings. `val.Siapath == dst` (sia.go:78) compares bytes, while a Dafny `string` is a sequence of characters. A `dst` that is not valid UTF-8 cannot be written in the model. In Go such a `dst` never equals a decoded `siapath`, because encoding/json replaces invalid bytes with U+FFFD, so that call polls forever.
- Query-string encoding with `URL.Query()` and `Encode()` (sia.go:118-122). That logic belongs to net/url, so the model stops at the argument map.
- JSON decoding (sia.go:92-96). Its result is the `Decoder` oracle.
- `time.Sleep`. It is a `Slept` event, not a duration.
- The record fields `Filesize`, `Renewing`, `Redundancy`, `Uploadprogress` and `Expiration` (sia.go:143-148). No logic reads them.
- `Downloads` and `DownloadList` (sia.go:37-45, 152-161). They fetch and decode with no further logic.
- The `CONTRACTS` constant (sia.go:15). Nothing uses it.
- The unbounded loop. It is modelled over a finite oracle. Running out of snapshots is the status `StillPolling`, which stands for "would keep polling".

=== FILE: endpoints.dfy ===
/** The remote renter API's endpoint paths, built by concatenation
    exactly as the client library builds them. */
module Endpoints {

  const Renter: string := "/renter"
  const Delete: string := Renter + "/delete"
  const Download: string := Renter + "/download"
  const Files: string := Renter + "/files"
  const Upload: string := Renter + "/upload"
}

=== FILE: poller.dfy ===
/** `UploadDefault`: one upload POST, then repeated `ListFiles` calls until a
    listing holds the uploaded path as available, sleeping 100 ms after every
    listing (including the one that matched). The listing outcomes are an
    oracle: `fetches[i]` is what the i-th `ListFiles` call produced. A finite
    oracle that runs out before the loop stops leaves the call still polling:
    the source would call `ListFiles` again, and since the loop has no bound
    it polls forever only if no later snapshot stops it. */
module Poller {
  import opened Requests
  import opened Transport

  /** Observable actions, in order. `Issued(q)` is a call of `makeRequest`
      with `q`; when building the request fails, that call ends the process
      and nothing reaches the network. `Slept` is one 100 ms sleep. */
  datatype Event = Issued(q: Request) | Slept

  /** How the call ended: `return nil`, `return err`, process exit, or not
      ended when the oracle ran out. */
  datatype Status =
    | ReturnedNil
    | ReturnedErr(err: Error)
    | Exited(reason: string)
    | StillPolling

  datatype Run = Run(status: Status, trace: seq<Event>)

  /** The stop condition of the scan over one listing. */
  predicate Matches(r: FileRecord, dst: string)
  {
    r.siapath == dst && r.available
  }

  predicate HasMatch(files: seq<FileRecord>, dst: string)
  {
    exists j :: 0 <= j < |files| && Matches(files[j], dst)
  }

  /** A fetch after which the loop goes round again. */
  predicate Quiet(f: Fetch, dst: string)
  {
    f.Listing? && !HasMatch(f.files, dst)
  }

  /** One listing GET followed by one sleep. */
  const Round: seq<Event> := [Issued(ListFilesRequest()), Slept]

  function WithPrefix(t: seq<Event>, r: Run): Run
  {
    Run(r.status, t + r.trace)
  }

  /** Reference definition of the polling loop, one fetch per unfolding.
      It keeps polling exactly when every fetch is a listing without a match,
      and it does nothing but list and sleep. */
  function Await(dst: string, fetches: seq<Fetch>): (r: Run)
    ensures r.status.StillPolling? <==> forall j :: 0 <= j < |fetches| ==> Quiet(fetches[j], dst)
    ensures r.status.StillPolling? ==> |r.trace| == 2 * |fetches|
    ensures |r.trace| <= 2 * |fetches|
    ensures forall j :: 0 <= j < |r.trace| ==> r.trace[j] in Round
    decreases |fetches|
  {
    if |fetches| == 0 then Run(StillPolling, [])
    else
      match fetches[0]
      case Failed(err) => Run(ReturnedErr(err), [Issued(ListFilesRequest())])
      case Aborted(reason) => Run(Exited(reason), [Issued(ListFilesRequest())])
      case Listing(files) =>
        if HasMatch(files, dst) then Run(ReturnedNil, Round)
        else
          var rest := Await(dst, fetches[1..]);
          assert forall j :: 1 <= j < |fetches| ==> fetches[j] == fetches[1..][j - 1];
          WithPrefix(Round, rest)
  }

  /** Reference definition of `UploadDefault(src, dst)` given the upload
      POST's reply and the listing oracle. */
  function Upload(src: string, dst: string, post: Reply, fetches: seq<Fetch>): (r: Run)
    ensures |r.trace| >= 1 && r.trace[0] == Issued(UploadRequest(src, dst))
    ensures forall j :: 1 <= j < |r.trace| ==> r.trace[j] in Round
    ensures !post.Body? ==> |r.trace| == 1
    ensures post.Abort? ==> r.status == Exited(post.reason)
    ensures post.Err? ==> r.status == ReturnedErr(post.err)
  {
    var posted := [Issued(UploadRequest(src, dst))];
    match post
    case Abort(reason) => Run(Exited(reason), posted)
    case Err(_, err) => Run(ReturnedErr(err), posted)
    case Body(_) => WithPrefix(posted, Await(dst, fetches))
  }

  /** One round of the reference loop, started at fetch i. */
  lemma AwaitUnfold(dst: string, fetches: seq<Fetch>, i: nat)
    requires i < |fetches|
    ensures fetches[i].Failed? ==>
              Await(dst, fetches[i..]) == Run(ReturnedErr(fetches[i].err), [Issued(ListFilesRequest())])
    ensures fetches[i].Aborted? ==>
              Await(dst, fetches[i..]) == Run(Exited(fetches[i].reason), [Issued(ListFilesRequest())])
    ensures fetches[i].Listing? && HasMatch(fetches[i].files, dst) ==>
              Await(dst, fetches[i..]) == Run(ReturnedNil, Round)
    ensures Quiet(fetches[i], dst) ==>
              Await(dst, fetches[i..]) == WithPrefix(Round, Await(dst, fetches[i + 1..]))
  {
    assert fetches[i..][1..] == fetches[i + 1..];
  }

  /** The scan over one listing: stop at the first record whose path is the
      upload's destination and which is available. */
  method ScanForMatch(files: seq<FileRecord>, dst: string) returns (found: bool)
    ensures found <==> exists j :: 0 <= j < |files| && files[j].siapath == dst && files[j].available
  {
    found := false;
    var i := 0;
    while i < |files|
      invariant 0 <= i <= |files|
      invariant forall j :: 0 <= j < i ==> !(files[j].siapath == dst && files[j].available)
    {
      if files[i].siapath == dst && files[i].available {
        found := true;
        break;
      }
      i := i + 1;
    }
  }

  /** The imperative loop, step for step: the `cont` flag, the early returns
      and the sleep at the end of every round. */
  method UploadDefault(src: string, dst: string, post: Reply, fetches: seq<Fetch>) returns (run: Run)
    ensures run == Upload(src, dst, post, fetches)
  {
    var trace := [Issued(UploadRequest(src, dst))];
    match post {
      case Abort(reason) => return Run(Exited(reason), trace);
      case Err(_, err) => return Run(ReturnedErr(err), trace);
      case Body(_) =>
    }
    var i := 0;
    var cont := true;
    while cont && i < |fetches|
      invariant 0 <= i <= |fetches|
      invariant cont ==> Upload(src, dst, post, fetches) == WithPrefix(trace, Await(dst, fetches[i..]))
      invariant !cont ==> Upload(src, dst, post, fetches) == Run(ReturnedNil, trace)
      decreases |fetches| - i
    {
      var fetch := fetches[i];
      AwaitUnfold(dst, fetches, i);
      trace := trace + [Issued(ListFilesRequest())];
      i := i + 1;
      match fetch {
        case Failed(err) => return Run(ReturnedErr(err), trace);
        case Aborted(reason) => return Run(Exited(reason), trace);
        case Listing(files) =>
          var found := ScanForMatch(files, dst);
          if found {
            cont := false;
          }
      }
      trace := trace + [Slept];
    }
    if cont {
      run := Run(StillPolling, trace);
    } else {
      run := Run(ReturnedNil, trace);
    }
  }
}

=== FILE: poller_facts.dfy ===
/** Properties of `UploadDefault`: how many listings and sleeps it performs,
    which outcome it returns, and which snapshots can stop it. */
module PollerFacts {
  import opened Requests
  import opened Transport
  import opened Poller

  /** `n` rounds of the loop: listing GET, sleep, repeated. */
  function Rounds(n: nat): seq<Event>
  {
    if n == 0 then [] else Round + Rounds(n - 1)
  }

  /** Number of `ListFiles` calls in a trace. */
  function Fetches(t: seq<Event>): nat
  {
    if |t| == 0 then 0
    else (if t[0] == Issued(ListFilesRequest()) then 1 else 0) + Fetches(t[1..])
  }

  /** Number of sleeps in a trace. */
  function Sleeps(t: seq<Event>): nat
  {
    if |t| == 0 then 0
    else (if t[0] == Slept then 1 else 0) + Sleeps(t[1..])
  }

  /** The fetches before index k all let the loop go round again. */
  predicate QuietBefore(dst: string, fetches: seq<Fetch>, k: nat)
  {
    k <= |fetches| && forall j :: 0 <= j < k ==> Quiet(fetches[j], dst)
  }

  lemma {:induction false} CountsAppend(t: seq<Event>, u: seq<Event>)
    ensures Fetches(t + u) == Fetches(t) + Fetches(u)
    ensures Sleeps(t + u) == Sleeps(t) + Sleeps(u)
    decreases |t|
  {
    if |t| > 0 {
      assert (t + u)[1..] == t[1..] + u;
      CountsAppend(t[1..], u);
    } else {
      assert t + u == u;
    }
  }

  lemma {:induction false} RoundsCounts(n: nat)
    ensures Fetches(Rounds(n)) == n && Sleeps(Rounds(n)) == n
  {
    if n > 0 {
      RoundsCounts(n - 1);
      CountsAppend(Round, Rounds(n - 1));
    }
  }

  /** The upload POST alone is neither a listing nor a sleep. */
  lemma PostedCounts(src: string, dst: string)
    ensures Fetches([Issued(UploadRequest(src, dst))]) == 0
    ensures Sleeps([Issued(UploadRequest(src, dst))]) == 0
  {
  }

  /** Quiet fetches are consumed one round each; the outcome is decided by
      what follows them. */
  lemma {:induction false} AwaitSkipsQuiet(dst: string, fetches: seq<Fetch>, k: nat)
    requires QuietBefore(dst, fetches, k)
    ensures Await(dst, fetches) == WithPrefix(Rounds(k), Await(dst, fetches[k..]))
  {
    if k == 0 {
      assert fetches[0..] == fetches;
    } else {
      AwaitSkipsQuiet(dst, fetches, k - 1);
      assert Quiet(fetches[k - 1], dst);
      AwaitUnfold(dst, fetches, k - 1);
      var later := Await(dst, fetches[k..]);
      assert Await(dst, fetches[k - 1..]) == WithPrefix(Round, later);
      RoundsSnoc(k - 1);
      AppendAssoc(Rounds(k - 1), Round, later.trace);
    }
  }

  lemma AwaitAllQuiet(dst: string, fetches: seq<Fetch>)
    requires QuietBefore(dst, fetches, |fetches|)
    ensures Await(dst, fetches) == Run(StillPolling, Rounds(|fetches|))
  {
    var n := |fetches|;
    AwaitSkipsQuiet(dst, fetches, n);
    assert fetches[n..] == [];
    assert Rounds(n) + [] == Rounds(n);
  }

  /** If snapshot k is the first to hold an available record at `dst`, and no
      earlier fetch failed, the call returns nil after exactly k+1 listings
      and k+1 sleeps: the sleep also follows the matching listing. */
  lemma FirstMatchReturnsNil(src: string, dst: string, body: string, fetches: seq<Fetch>, k: nat)
    requires k < |fetches| && QuietBefore(dst, fetches, k)
    requires fetches[k].Listing? && HasMatch(fetches[k].files, dst)
    ensures Upload(src, dst, Body(body), fetches)
         == Run(ReturnedNil, [Issued(UploadRequest(src, dst))] + Rounds(k + 1))
    ensures var t := Upload(src, dst, Body(body), fetches).trace;
            Fetches(t) == k + 1 && Sleeps(t) == k + 1
  {
    AwaitSkipsQuiet(dst, fetches, k);
    assert Await(dst, fetches[k..]) == Run(ReturnedNil, Round);
    assert Rounds(k + 1) == Rounds(k) + Round by { RoundsSnoc(k); }
    PostedCounts(src, dst);
    RoundsCounts(k + 1);
    CountsAppend([Issued(UploadRequest(src, dst))], Rounds(k + 1));
  }

  lemma AppendAssoc(a: seq<Event>, b: seq<Event>, c: seq<Event>)
    ensures a + (b + c) == (a + b) + c
  {
  }

  lemma {:induction false} RoundsSnoc(n: nat)
    ensures Rounds(n + 1) == Rounds(n) + Round
  {
    if n > 0 {
      RoundsSnoc(n - 1);
    }
  }

  /** A listing error before any match is returned at once: k+1 listings,
      only k sleeps (none for the failing round), nothing after it. */
  lemma ListingErrorReturned(src: string, dst: string, body: string, fetches: seq<Fetch>, k: nat)
    requires k < |fetches| && QuietBefore(dst, fetches, k)
    requires fetches[k].Failed?
    ensures Upload(src, dst, Body(body), fetches)
         == Run(ReturnedErr(fetches[k].err),
                [Issued(UploadRequest(src, dst))] + Rounds(k) + [Issued(ListFilesRequest())])
    ensures var t := Upload(src, dst, Body(body), fetches).trace;
            Fetches(t) == k + 1 && Sleeps(t) == k
  {
    AwaitSkipsQuiet(dst, fetches, k);
    var posted := [Issued(UploadRequest(src, dst))];
    var listed := [Issued(ListFilesRequest())];
    assert Await(dst, fetches[k..]) == Run(ReturnedErr(fetches[k].err), listed);
    PostedCounts(src, dst);
    RoundsCounts(k);
    CountsAppend(posted, Rounds(k));
    CountsAppend(posted + Rounds(k), listed);
    assert listed[1..] == [];
  }

  /** A listing that ends the process (transport failure or undecodable
      body) ends the call the same way: k+1 listings, k sleeps. */
  lemma ListingAbortExits(src: string, dst: string, body: string, fetches: seq<Fetch>, k: nat)
    requires k < |fetches| && QuietBefore(dst, fetches, k)
    requires fetches[k].Aborted?
    ensures Upload(src, dst, Body(body), fetches)
         == Run(Exited(fetches[k].reason),
                [Issued(UploadRequest(src, dst))] + Rounds(k) + [Issued(ListFilesRequest())])
    ensures var t := Upload(src, dst, Body(body), fetches).trace;
            Fetches(t) == k + 1 && Sleeps(t) == k
  {
    AwaitSkipsQuiet(dst, fetches, k);
    var posted := [Issued(UploadRequest(src, dst))];
    var listed := [Issued(ListFilesRequest())];
    assert Await(dst, fetches[k..]) == Run(Exited(fetches[k].reason), listed);
    PostedCounts(src, dst);
    RoundsCounts(k);
    CountsAppend(posted, Rounds(k));
    CountsAppend(posted + Rounds(k), listed);
    assert listed[1..] == [];
  }

  /** An error from the upload POST is returned before any listing or sleep. */
  lemma UploadErrorSkipsPolling(src: string, dst: string, text: string, err: Error, fetches: seq<Fetch>)
    ensures Upload(src, dst, Err(text, err), fetches).status == ReturnedErr(err)
    ensures var t := Upload(src, dst, Err(text, err), fetches).trace;
            Fetches(t) == 0 && Sleeps(t) == 0
  {
    PostedCounts(src, dst);
  }

  /** However many snapshots without a match the service reports, the call
      has not returned: it has listed and slept once per snapshot and is
      still polling. There is no bound or timeout. */
  lemma {:induction false} NoMatchKeepsPolling(src: string, dst: string, body: string, fetches: seq<Fetch>)
    requires QuietBefore(dst, fetches, |fetches|)
    ensures Upload(src, dst, Body(body), fetches)
         == Run(StillPolling, [Issued(UploadRequest(src, dst))] + Rounds(|fetches|))
    ensures var t := Upload(src, dst, Body(body), fetches).trace;
            Fetches(t) == |fetches| && Sleeps(t) == |fetches|
  {
    var posted := [Issued(UploadRequest(src, dst))];
    var n := |fetches|;
    AwaitAllQuiet(dst, fetches);
    var t := posted + Rounds(n);
    assert Upload(src, dst, Body(body), fetches) == Run(StillPolling, t);
    PostedCounts(src, dst);
    RoundsCounts(n);
    CountsAppend(posted, Rounds(n));
  }

  /** The loop's stopping snapshot, found by induction over the fetches. */
  lemma {:induction false} AwaitNilWitness(dst: string, fetches: seq<Fetch>)
    requires Await(dst, fetches).status.ReturnedNil?
    ensures exists k :: 0 <= k < |fetches| && QuietBefore(dst, fetches, k)
                        && fetches[k].Listing? && HasMatch(fetches[k].files, dst)
    decreases |fetches|
  {
    assert |fetches| > 0;
    if fetches[0].Listing? && HasMatch(fetches[0].files, dst) {
      assert QuietBefore(dst, fetches, 0);
    } else {
      var tail := fetches[1..];
      AwaitNilWitness(dst, tail);
      var k :| 0 <= k < |tail| && QuietBefore(dst, tail, k)
               && tail[k].Listing? && HasMatch(tail[k].files, dst);
      assert fetches[k + 1] == tail[k];
      assert QuietBefore(dst, fetches, k + 1) by {
        forall j | 0 <= j < k + 1
          ensures Quiet(fetches[j], dst)
        {
          if j > 0 {
            assert fetches[j] == tail[j - 1];
          }
        }
      }
    }
  }

  /** Conversely, `nil` is returned only after the upload POST succeeded and
      a snapshot held an available record whose path is `dst`, every earlier
      fetch having been a listing without such a record. A record at `dst`
      that is unavailable, or an available one elsewhere, never stops it. */
  lemma ReturnedNilOnlyAfterMatch(src: string, dst: string, post: Reply, fetches: seq<Fetch>)
    requires Upload(src, dst, post, fetches).status.ReturnedNil?
    ensures post.Body?
    ensures exists k :: 0 <= k < |fetches| && QuietBefore(dst, fetches, k)
                        && fetches[k].Listing?
                        && (exists j :: 0 <= j < |fetches[k].files|
                                        && fetches[k].files[j].siapath == dst
                                        && fetches[k].files[j].available)
  {
    AwaitNilWitness(dst, fetches);
  }

  /** Once the loop has stopped, later snapshots are never fetched: extending
      the oracle does not change the run. */
  lemma {:induction false} StopIgnoresLaterSnapshots(dst: string, fetches: seq<Fetch>, more: seq<Fetch>)
    requires !Await(dst, fetches).status.StillPolling?
    ensures Await(dst, fetches + more) == Await(dst, fetches)
    decreases |fetches|
  {
    assert |fetches| > 0;
    assert (fetches + more)[0] == fetches[0];
    if Quiet(fetches[0], dst) {
      assert (fetches + more)[1..] == fetches[1..] + more;
      StopIgnoresLaterSnapshots(dst, fetches[1..], more);
    }
  }

  /** Without listing errors the call never returns a non-nil error after a
      successful upload POST. */
  lemma {:induction false} NoFailedFetchNoError(dst: string, fetches: seq<Fetch>)
    requires forall j :: 0 <= j < |fetches| ==> !fetches[j].Failed?
    ensures !Await(dst, fetches).status.ReturnedErr?
    decreases |fetches|
  {
    if |fetches| > 0 && Quiet(fetches[0], dst) {
      assert forall j :: 0 <= j < |fetches| - 1 ==> fetches[1..][j] == fetches[j + 1];
      NoFailedFetchNoError(dst, fetches[1..]);
    }
  }

  /** `UploadDefault` over the real transport: the POST goes through
      `makeRequest` and every listing through `ListFiles`. It begins with the
      upload POST, and it polls only if that POST was delivered. */
  function UploadOverWire(src: string, dst: string, post: Wire, lists: seq<Wire>, decode: Decoder): (r: Run)
    ensures |r.trace| >= 1 && r.trace[0] == Issued(UploadRequest(src, dst))
    ensures |r.trace| > 1 ==> post.Delivered?
    ensures r.status.ReturnedNil? ==> post.Delivered?
  {
    Upload(src, dst, MakeRequest(UploadRequest(src, dst), post),
           seq(|lists|, i requires 0 <= i < |lists| => ListFiles(lists[i], decode)))
  }

  /** Both `if err != nil { return err }` branches of `UploadDefault` are
      dead: the call returns nil, ends the process, or keeps polling. */
  lemma UploadOverWireNeverReturnsErr(src: string, dst: string, post: Wire, lists: seq<Wire>, decode: Decoder)
    ensures !UploadOverWire(src, dst, post, lists, decode).status.ReturnedErr?
  {
    var fetches := seq(|lists|, i requires 0 <= i < |lists| => ListFiles(lists[i], decode));
    NoFailedFetchNoError(dst, fetches);
  }

  /** The one failure the upload POST can really meet is `log.Fatalln` in
      `makeRequest`: the process ends with its reason, before any listing or
      sleep. */
  lemma UploadOverWireAbortExits(src: string, dst: string, post: Wire, lists: seq<Wire>, decode: Decoder)
    requires !post.Delivered?
    ensures UploadOverWire(src, dst, post, lists, decode)
         == Run(Exited(post.reason), [Issued(UploadRequest(src, dst))])
  {
  }

  /** A record at `dst` that is not yet available, next to an available
      record at another path, does not stop the loop. */
  lemma DecoysDoNotStop(src: string, dst: string, other: string, body: string)
    requires other != dst
    ensures var snapshot := [FileRecord(dst, false), FileRecord(other, true)];
            Upload(src, dst, Body(body), [Listing(snapshot)]).status == StillPolling
  {
  }
}

=== FILE: requests.dfy ===
/** Request descriptors: what each public operation asks the transport to send.
    A descriptor is the HTTP method, the endpoint path (without the base
    address) and the query-argument map handed to the transport. */
module Requests {
  import Endpoints

  datatype Method = GET | POST

  datatype Option<+T> = None | Some(value: T)

  datatype Request = Request(verb: Method, endpoint: string, args: map<string, string>)

  /** Prefixes of the endpoints that take a remote path as their last segment. */
  const DeletePrefix: string := Endpoints.Delete + "/"
  const DownloadPrefix: string := Endpoints.Download + "/"
  const UploadPrefix: string := Endpoints.Upload + "/"

  /** `Delete(rem)`: a POST to the delete endpoint, no query arguments. */
  function DeleteRequest(rem: string): (q: Request)
    ensures q.verb == POST
    ensures q.endpoint == "/renter/delete/" + rem
    ensures q.args == map[]
  {
    Request(POST, Endpoints.Delete + "/" + rem, map[])
  }

  /** `Download(rem, local)`: a GET to the download endpoint carrying only the
      local destination path. */
  function DownloadRequest(rem: string, local: string): (q: Request)
    ensures q.verb == GET
    ensures q.endpoint == "/renter/download/" + rem
    ensures q.args.Keys == {"destination"} && q.args["destination"] == local
  {
    Request(GET, Endpoints.Download + "/" + rem, map["destination" := local])
  }

  /** The upload POST that `UploadDefault(src, dst)` issues before polling. */
  function UploadRequest(src: string, dst: string): (q: Request)
    ensures q.verb == POST
    ensures q.endpoint == "/renter/upload/" + dst
    ensures q.args.Keys == {"source"} && q.args["source"] == src
  {
    Request(POST, Endpoints.Upload + "/" + dst, map["source" := src])
  }

  /** The listing GET that `ListFiles` issues: no arguments. */
  function ListFilesRequest(): (q: Request)
    ensures q.verb == GET
    ensures q.endpoint == "/renter/files"
    ensures q.args == map[]
  {
    Request(GET, Endpoints.Files, map[])
  }

  /** The client operations that issue a request, with their arguments. */
  datatype Call =
    | DeleteCall(rem: string)
    | DownloadCall(rem: string, local: string)
    | UploadCall(src: string, dst: string)
    | ListFilesCall

  /** The request the library sends for a call. */
  function Build(c: Call): Request
  {
    match c
    case DeleteCall(rem) => DeleteRequest(rem)
    case DownloadCall(rem, local) => DownloadRequest(rem, local)
    case UploadCall(src, dst) => UploadRequest(src, dst)
    case ListFilesCall => ListFilesRequest()
  }

  /** Reads a request descriptor back into the call that names it, by its
      method, path prefix and argument keys; None for a descriptor no client
      operation builds. */
  function Route(q: Request): Option<Call>
  {
    if q.verb == POST && q.args == map[] && DeletePrefix <= q.endpoint then
      Some(DeleteCall(q.endpoint[|DeletePrefix|..]))
    else if q.verb == POST && q.args.Keys == {"source"} && UploadPrefix <= q.endpoint then
      Some(UploadCall(q.args["source"], q.endpoint[|UploadPrefix|..]))
    else if q.verb == GET && q.args.Keys == {"destination"} && DownloadPrefix <= q.endpoint then
      Some(DownloadCall(q.endpoint[|DownloadPrefix|..], q.args["destination"]))
    else if q.verb == GET && q.args == map[] && q.endpoint == Endpoints.Files then
      Some(ListFilesCall)
    else
      None
  }

  /** Route inverts Build: the method, the path segment and the single
      argument of a descriptor identify the operation and all of its inputs,
      so distinct calls build distinct descriptors. */
  lemma RouteBuild(c: Call)
    ensures Route(Build(c)) == Some(c)
  {
  }

  /** Conversely, any descriptor Route accepts is exactly the one Build makes
      for the call it names. */
  lemma BuildRoute(q: Request, c: Call)
    requires Route(q) == Some(c)
    ensures Build(c) == q
  {
  }
}

=== FILE: transport.dfy ===
/** The transport collaborator: `makeRequest`, the JSON decode step and the
    thin public operations built on them. The network, net/http and
    encoding/json are not modelled; what they did to one request is supplied
    as an oracle value (a `Wire` for the HTTP exchange, a `Decoder` for
    parsing). */
module Transport {
  import opened Requests

  /** A Go `error` value returned to the caller. */
  datatype Error = Error(message: string)

  /** What building and sending one request produced. */
  datatype Wire =
    | Delivered(body: string)     // a response arrived; its status code is not inspected
    | Unbuildable(reason: string) // http.NewRequest refused the URL or method
    | Unreachable(reason: string) // client.Do failed (DNS, refused connection, ...)

  /** Go's `(string, error)` result, plus the process exit that `log.Fatalln`
      performs. `Err` is the shape the signature admits; `Abort` is separate
      from it because the process ends and nothing is returned. */
  datatype Reply =
    | Body(text: string)
    | Err(text: string, err: Error)
    | Abort(reason: string)

  /** `makeRequest`: every failure ends the process, so a caller never sees a
      non-nil error; a delivered response hands back its body whatever its
      status code. */
  function MakeRequest(q: Request, w: Wire): (r: Reply)
    ensures !r.Err?
    ensures r.Body? <==> w.Delivered?
    ensures w.Delivered? ==> r.text == w.body
  {
    match w
    case Unbuildable(reason) => Abort(reason)
    case Unreachable(reason) => Abort(reason)
    case Delivered(body) => Body(body)
  }

  /** One entry of the files listing; only the fields the poller reads. */
  datatype FileRecord = FileRecord(siapath: string, available: bool)

  /** What `json.Unmarshal` made of a body. */
  datatype Decoded = Records(files: seq<FileRecord>) | DecodeError(reason: string)

  type Decoder = string -> Decoded

  /** The outcome of one `ListFiles` call as seen by its caller. */
  datatype Fetch =
    | Listing(files: seq<FileRecord>)
    | Failed(err: Error)
    | Aborted(reason: string)

  /** `ListFiles` after its GET has produced `reply`. The body is decoded
      before the error is looked at, and a decode failure ends the process, so
      an error reaches the caller only when its body still decodes. */
  function ListFilesFrom(reply: Reply, decode: Decoder): (f: Fetch)
    ensures f.Listing? <==> reply.Body? && decode(reply.text).Records?
    ensures f.Listing? ==> f.files == decode(reply.text).files
    ensures f.Failed? <==> reply.Err? && decode(reply.text).Records?
    ensures f.Failed? ==> f.err == reply.err
    ensures !reply.Abort? && decode(reply.text).DecodeError? ==> f.Aborted?
  {
    match reply
    case Abort(reason) => Aborted(reason)
    case Body(js) =>
      (match decode(js)
       case Records(files) => Listing(files)
       case DecodeError(reason) => Aborted(reason))
    case Err(js, err) =>
      (match decode(js)
       case Records(_) => Failed(err)
       case DecodeError(reason) => Aborted(reason))
  }

  /** `ListFiles`: one GET of the files endpoint, then decode. It never
      returns an error: it either lists or ends the process. */
  function ListFiles(w: Wire, decode: Decoder): (f: Fetch)
    ensures !f.Failed?
    ensures f.Listing? <==> w.Delivered? && decode(w.body).Records?
    ensures f.Listing? ==> f.files == decode(w.body).files
  {
    ListFilesFrom(MakeRequest(ListFilesRequest(), w), decode)
  }

  /** One call of `makeRequest`: the request it was given and its reply. */
  datatype Exchange = Exchange(issued: Request, reply: Reply)

  /** `Delete`: one POST of the delete descriptor for `rem` through
      `makeRequest`; it returns the delivered body or ends the process, never
      an error. */
  function Delete(rem: string, w: Wire): (x: Exchange)
    ensures x.issued == DeleteRequest(rem)
    ensures Route(x.issued) == Some(DeleteCall(rem))
    ensures !x.reply.Err?
    ensures x.reply.Body? <==> w.Delivered?
    ensures w.Delivered? ==> x.reply.text == w.body
  {
    var q := DeleteRequest(rem);
    Exchange(q, MakeRequest(q, w))
  }

  /** `Download`: one GET of the download descriptor for `rem` and `local`
      through `getWithArgs`; same outcome contract. */
  function Download(rem: string, local: string, w: Wire): (x: Exchange)
    ensures x.issued == DownloadRequest(rem, local)
    ensures Route(x.issued) == Some(DownloadCall(rem, local))
    ensures !x.reply.Err?
    ensures x.reply.Body? <==> w.Delivered?
    ensures w.Delivered? ==> x.reply.text == w.body
  {
    var q := DownloadRequest(rem, local);
    Exchange(q, MakeRequest(q, w))
  }
}
